=== FILE: README.md ===
# Video speed bot: tempo chain and session controller

This project models the two pieces of logic in the video speed bot that are
more than plumbing:

- **The tempo chain** of the processing job (`process_video.py`). The audio
  `atempo` filter accepts a single multiplier in [0.5, 2.0] per stage, so
  `create_audio_filter` turns the requested playback speed into a chain of
  stages whose product is the speed. Speeds above 2.0 get stages of 2.0 and
  speeds below 0.5 get stages of 0.5, until the remainder is in range. The
  video side is one presentation-timestamp factor of 1/speed. The model
  works over exact reals (module `TempoChain`, file `tempo.dfy`). It has:
  - a recursive reference definition;
  - a method whose two loops mirror the Python `while` loops;
  - proofs that every stage is in range and that the exact stages multiply
    back to the speed;
  - a proof that rounding the last stage to hundredths keeps the product
    within 1% of the speed.
- **The bot's per-user session controller** (`web_bot.py`), in four modules:
  - `Sessions` (`sessions.dfy`): the upload handler's size gate and the
    `user_sessions` map. The store is a `map<UserId, Session>`.
  - `GitHubActions` (`github.dfy`): the getFile resolver, which classifies
    failures by case-sensitive substring search, and the
    `repository_dispatch` trigger with its credentials check and 204 rule.
  - `Controller` (`controller.dfy`): the inline-button handler as a pure
    step function. It returns the new store and the ordered list of its
    outside effects: message edits, URL lookups and dispatch POSTs.
  - `Text` (`text.dfy`): the string operations these rely on, namely
    substring search, `str.split`, and `str(int)` with its inverse.

Everything the bot learns from the network is an input value. This covers
the getFile answer, the dispatch status, whether the menu message could be
fetched, and which message edits raise. Python's `float()` on the speed text
is a function parameter `parse`.

Two facts about the code shape the model:

- `create_audio_filter` has no check for speed ≤ 0, and its doubling loop
  never exits for such a speed (`DoublingNeverExits`), so the tempo members
  require speed > 0.
- The getFile error text is matched with Python's case-sensitive `in`
  (web_bot.py:108-116).

The model also records two consequences of the code as written:

- The upload handler stores `media.id`, which Telethon gives as an integer,
  as the session's file id. The resolver's log line before the request, the one
  with `file_id[:20]`, cannot slice an integer, and the resolver's catch-all
  handler turns that into `None`. So a session created by an upload can
  never be resolved or dispatched (`Sessions.UploadedSessionsNeverResolve`,
  `Controller.UploadThenSpeedNeverDispatches`). The resolver is still
  modelled in full for text ids (`FileRef.TextRef`).
- The upload handler stores the session before it sends the speed menu. If
  that reply raises, the error path answers the user but the session stays
  stored.

## Model

| member | source | states |
|---|---|---|
| TempoChain.AudioTempoChain | process_video.py:81-99 | For every speed > 0 the chain is non-empty, every stage lies in [0.5, 2.0], and the product of the exact stages equals the speed |
| TempoChain.SingleStageIffInRange | process_video.py:82-99 | The chain is the single stage `[speed]`, unrounded, exactly when 0.5 ≤ speed ≤ 2.0 (both ends inclusive); otherwise it has more than one stage |
| TempoChain.FastChainShape | process_video.py:82-89 | Above 2.0: k ≥ 1 leading stages of exactly 2.0, then a last stage in (1, 2] that, doubled k times, gives back the speed (speed / 2^k) |
| TempoChain.SlowChainShape | process_video.py:90-97 | Below 0.5: k ≥ 1 leading stages of exactly 0.5, then a last stage in [0.5, 1) equal to speed · 2^k |
| TempoChain.HalvingStages | process_video.py:83-88 | The reference for the `speed > 2.0` loop: never empty; `HalvingShape` states it is k stages of 2.0 then a remainder in (1, 2] that doubled k times gives the start, and `HalvingStagesFromCount` that this k is unique |
| TempoChain.DoublingStages | process_video.py:91-96 | The reference for the `speed < 0.5` loop: never empty; `DoublingShape` states it is k stages of 0.5 then a remainder in [0.5, 1) equal to the start doubled k times, and `DoublingStagesFromCount` that this k is unique |
| TempoChain.HalvingProduct | process_video.py:83-89 | The stages produced by the halving loop multiply back to the remainder it started from |
| TempoChain.DoublingProduct | process_video.py:91-97 | The stages produced by the doubling loop multiply back to the remainder it started from |
| TempoChain.DoublingNeverExits | process_video.py:93-95 | With speed ≤ 0 the remainder stays ≤ 0 < 0.5 after any number of doublings, so the loop never ends and speed > 0 is required |
| TempoChain.EmitHalvings | process_video.py:83-87 | The `speed > 2.0` loop terminates and emits exactly the reference chain up to its remainder; invariant: product of emitted stages × remainder = speed |
| TempoChain.EmitDoublings | process_video.py:91-95 | The `speed < 0.5` loop terminates and emits exactly the reference chain up to its remainder; invariant: product of emitted stages × remainder = speed |
| TempoChain.BuildAudioFilter | process_video.py:81-99 | The stage values written into the filter string: the exact chain, with only the last out-of-range remainder rounded; all stages stay in [0.5, 2.0] |
| TempoChain.RoundHundredths | process_video.py:88 | Rounding the last stage to two decimals gives a whole number of hundredths and moves it by at most half a hundredth |
| TempoChain.RoundKeepsStageRange | process_video.py:88 | A stage in [0.5, 2.0] stays in [0.5, 2.0] after rounding to two decimals |
| TempoChain.FilterStages | process_video.py:81-99 | The filter's stages have the chain's length, agree with it on all but the last stage, stay in range, and are exactly `[speed]` for an in-range speed; for an out-of-range speed the last stage is the chain's last stage rounded to a whole number of hundredths, within half a hundredth of it |
| TempoChain.FilterProductWithinOnePercent | process_video.py:88 | After rounding, the product of the filter's stages is within 1% of the requested speed |
| TempoChain.PtsFactor | process_video.py:102 | The video timestamp factor is positive and is the reciprocal of the speed |
| TempoChain.AudioMatchesVideo | process_video.py:101-102 | The product of the audio filter's stages as built (rounded last stage included) times the video timestamp factor lies within [0.99, 1.01], so audio and video change speed by nearly the same amount |
| TempoChain.ChainExamples | process_video.py:81-99 | 3.0 ↦ [2.0, 1.5]; 5.0 ↦ [2.0, 2.0, 1.25]; 0.2 ↦ [0.5, 0.5, 0.8]; 1.5 ↦ [1.5]; the filter for 5.0 keeps 1.25 unchanged; the factor for 1.5 undoes it |
| Text.Contains | web_bot.py:108-114 | Python's `in` on text: the empty needle is always found and a found needle is no longer than the text; `ContainsIffOccurs` ties it to an occurrence at some position |
| Text.ContainsIffOccurs | web_bot.py:107-115 | The substring test succeeds exactly when the needle occurs at some position of the text |
| Text.ContainsNeedsRoom | web_bot.py:104-118 | A needle longer than the text never occurs; one of the same length occurs only as the whole text |
| Text.IntToTextRoundTrip | web_bot.py:151-152 | The decimal text of any integer (with a minus sign when negative) reads back as that integer |
| Text.Split | web_bot.py:422 | `str.split` on one character always gives at least one piece; `SplitPieceCount`, `JoinSplit` and `SplitPiecesAreFree` state the rest |
| Text.SplitPieceCount | web_bot.py:422 | Splitting gives exactly one more piece than the text has separators |
| Text.JoinSplit | web_bot.py:422 | Splitting on a separator and joining the pieces back gives the original text |
| Text.SplitPiecesAreFree | web_bot.py:422 | No piece of a split contains the separator |
| Text.SplitFirstPiece | web_bot.py:422 | The first piece of a split is a prefix of the text, followed there by the separator or by the end of the text |
| Text.SplitAtFirst | web_bot.py:422 | Text before the first separator is the first piece, and the rest splits independently |
| GitHubActions.ClassifyFailure | web_bot.py:103-118 | The marker returned for an error description: FILE_TOO_BIG iff "file is too big" occurs; INVALID_FILE_ID iff not that but "invalid file id"; WRONG_FILE_ID iff neither but "wrong file id"; none otherwise |
| GitHubActions.UnknownErrorHasNoMarker | web_bot.py:104 | A failure without a description, which defaults to "Unknown error", earns no marker |
| GitHubActions.GetDirectVideoUrl | web_bot.py:83-135 | A numeric file id, a transport failure and any status other than 200 all give None; a 200 answer with `ok` false and a text description gives the marker of the first phrase that description contains, checked case-sensitively in the order file-too-big, invalid-file-id, wrong-file-id (None when it contains none); a missing description (read as "Unknown error") and a non-text one give None, as do a body that is not JSON or not an object and a missing file path; any string returned is either the URL of a successful answer or a marker |
| GitHubActions.ResolverResultIsUnambiguous | web_bot.py:121-125 | The resolver's result is a non-empty non-marker string exactly when the answer is 200 with ok and a file path; that string is the file URL, starting with the bot's file prefix, from which the path is read back |
| GitHubActions.MarkerOnlyForDescribedFailure | web_bot.py:103-118 | A marker comes back exactly for a 200 answer with ok false whose text description names one of the three phrases |
| GitHubActions.FailureGivesNoUrl | web_bot.py:103-118 | An answer with ok false yields None or a marker, never a URL |
| GitHubActions.UrlIsNoMarker | web_bot.py:122 | A download URL is never empty and never equal to a marker, so the caller's string tests cannot confuse them |
| GitHubActions.ClientFromConfig | web_bot.py:197-200 | A client exists iff both GitHub settings are non-empty, and it holds exactly those settings |
| GitHubActions.TriggerVideoWorkflow | web_bot.py:137-182 | No request iff the token or repo is empty; success iff a request was made and answered 204; the request is posted to exactly `https://api.github.com/repos/<repo>/dispatches` with a `token <token>` authorization, event type "process_video", the given URL and speed, and chat and message ids that read back as the given integers |
| GitHubActions.ConfiguredClientAlwaysDispatches | web_bot.py:73-82 | A client built from the configuration always sends its dispatch, to `…/repos/<repo>/dispatches` with a `token <token>` authorization |
| Sessions.IsVideoMessage | web_bot.py:339-344 | A message passes the upload filter when it is a video, or a document whose lower-cased MIME type starts with "video"; a passing document's MIME type is at least five characters long |
| Sessions.FilterIgnoresCase | web_bot.py:339-344 | The upload filter's MIME test gives the same answer for a MIME type and its lower-cased form |
| Sessions.HandleUpload | web_bot.py:345-403 | Over 2 GiB: the store is unchanged and the reply is "too large". Otherwise: the sender's key is added or overwritten with this upload's numeric id, name ("video.mp4" when absent), size in MB, chat and message. Other users' entries are never changed. The reply is an error exactly when sending the reply raises |
| Sessions.SizeLimitIsInclusive | web_bot.py:55 | An upload of exactly 2·1024³ bytes is stored; one byte more is refused with a 2048 MB limit |
| Sessions.LatestUploadWins | web_bot.py:376-385 | Two accepted uploads by the same user leave the store as if only the second had happened |
| Sessions.Remove | web_bot.py:418-419 | Forgetting a user removes exactly that key and keeps every other entry as it was |
| Sessions.RemoveIsIdempotent | web_bot.py:418-419 | Forgetting twice is forgetting once; forgetting an absent user changes nothing |
| Sessions.UploadedSessionsNeverResolve | web_bot.py:376-378 | A session stored by an upload holds the numeric media id, for which the resolver returns None whatever Telegram would answer |
| GitHubActions.DispatchRequest | web_bot.py:144-157 | The request goes to exactly `https://api.github.com/repos/<repo>/dispatches` with a `token <token>` authorization and event type "process_video", carries the given URL and speed, and its chat and message ids read back as the given integers |
| Sessions.MenuSpeedsReadBack | web_bot.py:58-63 | Every button of the speed menu splits on "_" into "speed" and the speed that button offers |
| Sessions.SpeedButtonField | web_bot.py:58-63 | A speed button's data splits on "_" into exactly "speed" and the offered speed text |
| Controller.SpeedField | web_bot.py:422 | The speed text taken from "speed_…" data is the text right after "speed_" up to the next underscore or the end of the data, and contains no underscore |
| Controller.HandleCallback | web_bot.py:405-527 | After a button press the store is the old one or the old one without the sender, and a sender without a session leaves it unchanged; `CallbackKeepsOrForgets`, `CallbackLookups` and `CallbackDispatches` state exactly when each happens |
| Controller.CallbackTry | web_bot.py:411-516 | When the try block completes, its store is the old one or the old one without the sender; `CallbackTryFacts` gives the full decision table |
| Controller.SpeedSelected | web_bot.py:421-443 | A speed press always starts with an edit, and a completed press keeps or forgets only the sender's upload; `SpeedSelectedFacts` states the lookups and dispatches |
| Controller.AfterLookup | web_bot.py:445-516 | Once the URL lookup has returned, the handler never keeps the upload, whatever the result; `TriggerPathFacts` and `LookupFailedFacts` state the dispatch |
| Controller.SpeedSelectedFacts | web_bot.py:425-443 | Without a session or a client: only a notice and no lookup. Otherwise: one lookup of the session's file (if the first edit works), the upload forgotten, and one dispatch exactly when the URL is usable and the first two edits work |
| Controller.TriggerPathFacts | web_bot.py:480-516 | With a usable URL: no further lookup, the upload forgotten whether or not the dispatch succeeded, and the dispatch posted exactly when the "triggering" edit works |
| Controller.LookupFailedFacts | web_bot.py:445-477 | Resolver result None, empty, FILE_TOO_BIG, INVALID_FILE_ID or WRONG_FILE_ID: the upload is forgotten and nothing is dispatched |
| Controller.CallbackTryFacts | web_bot.py:411-516 | The try block either raises or ends with the old store (exactly when the upload is kept) or the store without the sender; it looks up the session's file once exactly when the press passes the message, parse, session, client and first-edit steps; it posts one dispatch exactly when in addition the lookup gives a usable URL and the second edit works |
| Controller.CallbackKeepsOrForgets | web_bot.py:405-527 | The store after a button press is the old store or the old store without the sender, so other users and the session's contents are never touched. The upload survives exactly when the press was unknown data, or a parseable speed with no GitHub client whose notice edit worked |
| Controller.CallbackLookups | web_bot.py:425-443 | The file is looked up at most once, only for the sender's own upload, only when the press gets past the session and client checks, and a looked-up upload is always forgotten |
| Controller.CallbackDispatches | web_bot.py:480-486 | At most one dispatch per press. It happens exactly when the lookup is reached and succeeds and the "triggering" edit works. It carries the resolved file URL, the parsed speed, and the session's own chat and message ids |
| Controller.CancelForgetsUpload | web_bot.py:415-419 | "cancel" forgets the sender's upload (a no-op if there is none), looks nothing up, dispatches nothing, and first says "cancelled" |
| Controller.UnknownDataChangesNothing | web_bot.py:409-421 | Once the menu message has been fetched, data that is neither "cancel" nor "speed_…" leaves the store unchanged and has no effect |
| Controller.ExceptionIsReported | web_bot.py:517-527 | An exception in the try block ends with the "unexpected error" edit and the upload forgotten, even though that edit may itself fail |
| Controller.UploadThenSpeedNeverDispatches | web_bot.py:443-457 | After an accepted upload, no button press dispatches. A speed press with a configured client forgets the upload |

## Left out

- HTTP, JSON decoding, and the Telegram and GitHub APIs themselves. Each call's outcome is an input value, and the headers other than `Authorization` are not modelled.
- Logging, `datetime.now()` (the dispatch's `timestamp` and the session's arrival time), and the session's `media` object, which is stored but never read back.
- Text formatting. The `:.1f` sizes in replies are left out. `:.2f` is modelled as rounding half up to hundredths on exact reals; Python rounds the binary float half to even, so ties may differ. `:.5f` of the timestamp factor and `str(speed)` in the payload are carried as reals.
- Python's `float()` on the speed text is the parameter `parse`. NaN and infinities, which `float()` accepts, have no real counterpart.
- `event.data.decode()` runs outside the handler's try block; the data is taken as already-decoded text.
- The ffmpeg run, downloads, uploads and temporary files of the processing job, which are I/O.
- Environment loading, the /start, /help, /status and /debug commands, the web server and the bot lifecycle, which are outside the controller.
- Concurrency between handler invocations: each invocation is one atomic step.
- Sessions.FilterIgnoresCase: case folding covers ASCII letters only, not all of Unicode as `str.lower()` does.
- GitHubActions.GetDirectVideoUrl: `ok` is modelled by its truthiness, a non-text description is taken to give None (with a list or dict description Python's `in` could still match a phrase), and a missing `result` or `file_path` as an absent path.
- Sessions.HandleUpload: the only exception modelled is a failing reply; a media object without a `size` is not modelled.
- TempoChain.AudioTempoChain: requires speed > 0, because the code has no guard and its doubling loop never ends for speed ≤ 0.

=== FILE: controller.dfy ===
/**
  The inline-button handler: "cancel" forgets the user's upload; "speed_<x>"
  resolves the upload's download URL and, if that works, asks GitHub to run
  the processing workflow, then forgets the upload. Every edit of the menu
  message can raise; an exception anywhere in the handler is reported with a
  last edit and also forgets the upload.
 */
module Controller {
  import opened Wrappers
  import opened Text
  import opened GitHubActions
  import opened Sessions

  /** The status texts the handler writes into the menu message. */
  datatype Notice =
    | Cancelled
    | NoVideoFound
    | NotConfigured
    | FetchingUrl(speed: real)
    | UrlUnavailable
    | TooBigForBotApi
    | BadFileId
    | Triggering(speed: real)
    | Triggered(speed: real, sizeMb: real, fileName: string)
    | TriggerFailed
    | UnexpectedError

  /** What the handler does to the outside world, in order. */
  datatype Effect = Edit(notice: Notice) | FetchUrl(fileRef: FileRef) | Post(dispatch: Dispatch)

  /** How the outside world answers during one callback: whether fetching the
      menu message works, which edits of the try block raise (counted from 0),
      what getFile answers and what the dispatch POST answers. */
  datatype CallbackEnv = CallbackEnv(messageFetched: bool, failingEdits: set<nat>,
                                     getFile: GetFileReply, dispatchReply: DispatchReply)

  /** The bot's configuration; the GitHub client exists only when both
      settings are present. */
  datatype Bot = Bot(botToken: string, ghToken: string, ghRepo: string) {
    function Client(): Option<GitHubClient> {
      ClientFromConfig(ghToken, ghRepo)
    }
  }

  /** How the try block ends: normally, or by an exception after some effects. */
  datatype TryResult = Completed(store: Store, effects: seq<Effect>) | Raised(effects: seq<Effect>)

  datatype CallbackResult = CallbackResult(store: Store, effects: seq<Effect>)

  function Then(fx: seq<Effect>, t: TryResult): TryResult {
    match t
      case Completed(s, e) => Completed(s, fx + e)
      case Raised(e) => Raised(fx + e)
  }

  /** The k-th `event.edit` of the try block, followed by the rest of the block. */
  function EditThen(env: CallbackEnv, k: nat, notice: Notice, rest: TryResult): TryResult {
    if k in env.failingEdits then Raised([Edit(notice)]) else Then([Edit(notice)], rest)
  }

  predicate IsSpeedData(data: string) {
    IsPrefix(SpeedPrefix, data)
  }

  /** `data.split("_")[1]`: the text after "speed_" up to the next underscore. */
  function SpeedField(data: string): (field: string)
    requires IsSpeedData(data)
    ensures '_' !in field
    ensures IsPrefix(field, data[|SpeedPrefix|..])
    ensures |field| == |data| - |SpeedPrefix| || data[|SpeedPrefix| + |field|] == '_'
  {
    assert data == "speed" + ['_'] + data[|SpeedPrefix|..];
    SplitAtFirst("speed", '_', data[|SpeedPrefix|..]);
    SplitPiecesAreFree(data, '_');
    SplitFirstPiece(data[|SpeedPrefix|..], '_');
    Split(data, '_')[1]
  }

  /** The answer to a speed button once the URL lookup has returned. */
  function AfterLookup(env: CallbackEnv, store: Store, sender: UserId, session: Session,
                       speed: real, client: GitHubClient, url: Option<string>): (r: TryResult)
    ensures EndsWith(r, Remove(store, sender))
  {
    var done := Completed(Remove(store, sender), []);
    if url.None? || url.value == "" then EditThen(env, 1, UrlUnavailable, done)
    else if url.value == FileTooBigMarker then EditThen(env, 1, TooBigForBotApi, done)
    else if url.value == InvalidFileIdMarker || url.value == WrongFileIdMarker then EditThen(env, 1, BadFileId, done)
    else
      var outcome := TriggerVideoWorkflow(client, url.value, speed, session.chatId, session.messageId, env.dispatchReply);
      var posted := if outcome.attempt.Some? then [Post(outcome.attempt.value)] else [];
      var report := if outcome.success then Triggered(speed, session.fileSizeMb, session.fileName) else TriggerFailed;
      EditThen(env, 1, Triggering(speed), Then(posted, EditThen(env, 2, report, done)))
  }

  function SpeedSelected(bot: Bot, store: Store, sender: UserId, speed: real, env: CallbackEnv): (r: TryResult)
    ensures r.Completed? ==> r.store == store || r.store == Remove(store, sender)
    ensures |r.effects| > 0 && r.effects[0].Edit?
  {
    if sender !in store then EditThen(env, 0, NoVideoFound, Completed(store, []))
    else if bot.Client().None? then EditThen(env, 0, NotConfigured, Completed(store, []))
    else
      var session := store[sender];
      var url := GetDirectVideoUrl(bot.botToken, session.fileRef, env.getFile);
      EditThen(env, 0, FetchingUrl(speed),
        Then([FetchUrl(session.fileRef)], AfterLookup(env, store, sender, session, speed, bot.Client().value, url)))
  }

  /** The try block of the handler. `parse` is Python's `float` on the speed
      text: None where it raises. */
  function CallbackTry(bot: Bot, store: Store, sender: UserId, data: string,
                       parse: string -> Option<real>, env: CallbackEnv): (r: TryResult)
    ensures r.Completed? ==> r.store == store || r.store == Remove(store, sender)
  {
    if !env.messageFetched then Raised([])
    else if data == CancelData then EditThen(env, 0, Cancelled, Completed(Remove(store, sender), []))
    else if IsSpeedData(data) then
      match parse(SpeedField(data))
        case None => Raised([])
        case Some(speed) => SpeedSelected(bot, store, sender, speed, env)
    else Completed(store, [])
  }

  /** `callback_handler`: the try block, and on an exception one more edit
      (whose own failure is swallowed) and the upload forgotten. */
  function HandleCallback(bot: Bot, store: Store, sender: UserId, data: string,
                          parse: string -> Option<real>, env: CallbackEnv): (r: CallbackResult)
    ensures r.store == store || r.store == Remove(store, sender)
    ensures sender !in store ==> r.store == store
  {
    match CallbackTry(bot, store, sender, data, parse, env)
      case Completed(s, fx) => CallbackResult(s, fx)
      case Raised(fx) => CallbackResult(Remove(store, sender), fx + [Edit(UnexpectedError)])
  }

  /** The dispatches among the effects, in order. */
  function Posts(fx: seq<Effect>): seq<Dispatch> {
    if |fx| == 0 then []
    else (if fx[0].Post? then [fx[0].dispatch] else []) + Posts(fx[1..])
  }

  /** The URL lookups among the effects, in order. */
  function Fetches(fx: seq<Effect>): seq<FileRef> {
    if |fx| == 0 then []
    else (if fx[0].FetchUrl? then [fx[0].fileRef] else []) + Fetches(fx[1..])
  }

  lemma {:induction false} ProjectionsDistribute(a: seq<Effect>, b: seq<Effect>)
    ensures Posts(a + b) == Posts(a) + Posts(b)
    ensures Fetches(a + b) == Fetches(a) + Fetches(b)
    decreases |a|
  {
    if |a| > 0 {
      ProjectionsDistribute(a[1..], b);
      assert (a + b)[1..] == a[1..] + b;
    } else {
      assert a + b == b;
    }
  }

  lemma ThenEffects(fx: seq<Effect>, t: TryResult)
    ensures Then(fx, t).effects == fx + t.effects
    ensures Then(fx, t).Completed? <==> t.Completed?
    ensures t.Completed? ==> Then(fx, t).store == t.store
  {
  }

  /** An edit either raises at once or leads into the rest of the block. */
  lemma EditThenShape(env: CallbackEnv, k: nat, notice: Notice, rest: TryResult)
    ensures var t := EditThen(env, k, notice, rest);
      && t.effects == [Edit(notice)] + (if k in env.failingEdits then [] else rest.effects)
      && (t.Completed? <==> k !in env.failingEdits && rest.Completed?)
      && (t.Completed? ==> t.store == rest.store)
  {
  }

  predicate OnlyEdits(fx: seq<Effect>) {
    forall i :: 0 <= i < |fx| ==> fx[i].Edit?
  }

  lemma {:induction false} EditsProjectToNothing(fx: seq<Effect>)
    requires OnlyEdits(fx)
    ensures Posts(fx) == [] && Fetches(fx) == []
    decreases |fx|
  {
    if |fx| > 0 {
      EditsProjectToNothing(fx[1..]);
    }
  }

  /** The lookup's result lets the handler go on to trigger the workflow. */
  predicate UsableUrl(url: Option<string>) {
    url.Some? && url.value != "" && !IsMarker(url.value)
  }

  /** The try block either raised or finished with the given store. */
  predicate EndsWith(t: TryResult, s: Store) {
    t.Raised? || t.store == s
  }

  /** The edits, dispatch and final edit once a usable URL is in hand. */
  lemma TriggerPathFacts(env: CallbackEnv, store: Store, sender: UserId, session: Session,
                         speed: real, client: GitHubClient, url: Option<string>)
    requires UsableUrl(url)
    ensures var t := AfterLookup(env, store, sender, session, speed, client, url);
      var outcome := TriggerVideoWorkflow(client, url.value, speed, session.chatId, session.messageId, env.dispatchReply);
      && EndsWith(t, Remove(store, sender))
      && Fetches(t.effects) == []
      && Posts(t.effects) == (if 1 !in env.failingEdits && outcome.attempt.Some? then [outcome.attempt.value] else [])
  {
    var done := Completed(Remove(store, sender), []);
    var outcome := TriggerVideoWorkflow(client, url.value, speed, session.chatId, session.messageId, env.dispatchReply);
    var posted := if outcome.attempt.Some? then [Post(outcome.attempt.value)] else [];
    var report := if outcome.success then Triggered(speed, session.fileSizeMb, session.fileName) else TriggerFailed;
    var last := EditThen(env, 2, report, done);
    EditThenShape(env, 2, report, done);
    EditsProjectToNothing(last.effects);
    var middle := Then(posted, last);
    ThenEffects(posted, last);
    ProjectionsDistribute(posted, last.effects);
    assert Posts(posted) == (if outcome.attempt.Some? then [outcome.attempt.value] else []);
    assert Fetches(posted) == [];
    var t := EditThen(env, 1, Triggering(speed), middle);
    assert t == AfterLookup(env, store, sender, session, speed, client, url);
    EditThenShape(env, 1, Triggering(speed), middle);
    ProjectionsDistribute([Edit(Triggering(speed))], if 1 in env.failingEdits then [] else middle.effects);
  }

  /** Without a usable URL the handler reports the failure and stops. */
  lemma LookupFailedFacts(env: CallbackEnv, store: Store, sender: UserId, session: Session,
                          speed: real, client: GitHubClient, url: Option<string>)
    requires !UsableUrl(url)
    ensures var t := AfterLookup(env, store, sender, session, speed, client, url);
      && EndsWith(t, Remove(store, sender))
      && Fetches(t.effects) == [] && Posts(t.effects) == []
  {
    var t := AfterLookup(env, store, sender, session, speed, client, url);
    assert OnlyEdits(t.effects);
    EditsProjectToNothing(t.effects);
  }

  /** The dispatch a configured bot sends for a usable URL. */
  function DispatchFor(bot: Bot, session: Session, speed: real, url: string): Dispatch
    requires bot.Client().Some?
  {
    DispatchRequest(bot.Client().value, url, speed, session.chatId, session.messageId)
  }

  /** A speed choice: without an upload or without GitHub settings the handler
      only says so; otherwise it looks the file up once, forgets the upload,
      and posts one dispatch when the lookup gives a usable URL and the first
      two edits work. */
  lemma SpeedSelectedFacts(bot: Bot, store: Store, sender: UserId, speed: real, env: CallbackEnv)
    ensures var t := SpeedSelected(bot, store, sender, speed, env);
      var proceeds := sender in store && bot.Client().Some?;
      && EndsWith(t, if proceeds then Remove(store, sender) else store)
      && Fetches(t.effects) == (if proceeds && 0 !in env.failingEdits then [store[sender].fileRef] else [])
      && (proceeds ==>
           var url := GetDirectVideoUrl(bot.botToken, store[sender].fileRef, env.getFile);
           Posts(t.effects) ==
             (if 0 !in env.failingEdits && 1 !in env.failingEdits && UsableUrl(url)
              then [DispatchFor(bot, store[sender], speed, url.value)] else []))
      && (!proceeds ==> Posts(t.effects) == [])
  {
    var t := SpeedSelected(bot, store, sender, speed, env);
    if sender !in store || bot.Client().None? {
      assert OnlyEdits(t.effects);
      EditsProjectToNothing(t.effects);
    } else {
      var session := store[sender];
      var client := bot.Client().value;
      var url := GetDirectVideoUrl(bot.botToken, session.fileRef, env.getFile);
      var after := AfterLookup(env, store, sender, session, speed, client, url);
      if UsableUrl(url) {
        TriggerPathFacts(env, store, sender, session, speed, client, url);
      } else {
        LookupFailedFacts(env, store, sender, session, speed, client, url);
      }
      var fetched := Then([FetchUrl(session.fileRef)], after);
      ThenEffects([FetchUrl(session.fileRef)], after);
      ProjectionsDistribute([FetchUrl(session.fileRef)], after.effects);
      assert t == EditThen(env, 0, FetchingUrl(speed), fetched);
      EditThenShape(env, 0, FetchingUrl(speed), fetched);
      ProjectionsDistribute([Edit(FetchingUrl(speed))], if 0 in env.failingEdits then [] else fetched.effects);
    }
  }

  /** A button press that gets as far as looking the file up. */
  predicate ReachesLookup(bot: Bot, store: Store, sender: UserId, data: string,
                          parse: string -> Option<real>, env: CallbackEnv)
  {
    && env.messageFetched && IsSpeedData(data) && parse(SpeedField(data)).Some?
    && sender in store && bot.Client().Some? && 0 !in env.failingEdits
  }

  /** A button press that ends with a dispatch posted to GitHub. */
  predicate ReachesDispatch(bot: Bot, store: Store, sender: UserId, data: string,
                            parse: string -> Option<real>, env: CallbackEnv)
  {
    && ReachesLookup(bot, store, sender, data, parse, env)
    && 1 !in env.failingEdits && ResolvesToUrl(store[sender].fileRef, env.getFile)
  }

  /** The upload outlives the press only when nothing was attempted for it. */
  predicate KeepsUpload(bot: Bot, store: Store, sender: UserId, data: string,
                        parse: string -> Option<real>, env: CallbackEnv)
  {
    && sender in store && env.messageFetched && data != CancelData
    && (IsSpeedData(data) ==> parse(SpeedField(data)).Some? && bot.Client().None? && 0 !in env.failingEdits)
  }

  lemma CallbackTryFacts(bot: Bot, store: Store, sender: UserId, data: string,
                         parse: string -> Option<real>, env: CallbackEnv)
    ensures var t := CallbackTry(bot, store, sender, data, parse, env);
      && EndsWith(t, if KeepsUpload(bot, store, sender, data, parse, env) then store else Remove(store, sender))
      && (t.Completed? && !KeepsUpload(bot, store, sender, data, parse, env) ==> sender !in t.store)
      && Fetches(t.effects) == (if ReachesLookup(bot, store, sender, data, parse, env) then [store[sender].fileRef] else [])
      && (ReachesLookup(bot, store, sender, data, parse, env) ==>
           var url := GetDirectVideoUrl(bot.botToken, store[sender].fileRef, env.getFile);
           Posts(t.effects) ==
             (if 1 !in env.failingEdits && UsableUrl(url)
              then [DispatchFor(bot, store[sender], parse(SpeedField(data)).value, url.value)] else []))
      && (!ReachesLookup(bot, store, sender, data, parse, env) ==> Posts(t.effects) == [])
  {
    var t := CallbackTry(bot, store, sender, data, parse, env);
    if !env.messageFetched {
      assert t == Raised([]);
    } else if data == CancelData {
      assert data[0] != SpeedPrefix[0];
      var done := Completed(Remove(store, sender), []);
      assert t == EditThen(env, 0, Cancelled, done);
      EditThenShape(env, 0, Cancelled, done);
      assert OnlyEdits(t.effects);
      EditsProjectToNothing(t.effects);
    } else if !IsSpeedData(data) {
      assert t == Completed(store, []);
    } else {
      var speed := parse(SpeedField(data));
      if speed.None? {
        assert t == Raised([]);
      } else {
        assert t == SpeedSelected(bot, store, sender, speed.value, env);
        SpeedSelectedFacts(bot, store, sender, speed.value, env);
      }
    }
  }

  /** The handler never changes a session and never touches other users: the
      sender's upload is either kept as it was or forgotten, and it is kept
      exactly when the press was an unknown button, or a speed button that
      found no GitHub settings and could say so. */
  lemma CallbackKeepsOrForgets(bot: Bot, store: Store, sender: UserId, data: string,
                               parse: string -> Option<real>, env: CallbackEnv)
    ensures var r := HandleCallback(bot, store, sender, data, parse, env);
      && (r.store == store || r.store == Remove(store, sender))
      && (sender in r.store <==> KeepsUpload(bot, store, sender, data, parse, env))
  {
    CallbackTryFacts(bot, store, sender, data, parse, env);
  }

  /** The file is looked up at most once, only for the sender's own upload,
      and an upload that was looked up is always forgotten. */
  lemma CallbackLookups(bot: Bot, store: Store, sender: UserId, data: string,
                        parse: string -> Option<real>, env: CallbackEnv)
    ensures var r := HandleCallback(bot, store, sender, data, parse, env);
      && Fetches(r.effects) == (if ReachesLookup(bot, store, sender, data, parse, env) then [store[sender].fileRef] else [])
      && (|Fetches(r.effects)| > 0 ==> sender !in r.store)
  {
    var t := CallbackTry(bot, store, sender, data, parse, env);
    CallbackTryFacts(bot, store, sender, data, parse, env);
    if t.Raised? {
      ProjectionsDistribute(t.effects, [Edit(UnexpectedError)]);
      assert Fetches([Edit(UnexpectedError)]) == [];
    }
  }

  /** At most one dispatch is posted; it is posted exactly when the press
      reaches the lookup, the lookup succeeds and the "triggering" edit works;
      and it carries the resolved URL, the chosen speed and the upload's own
      chat and message ids, which read back from their text. */
  lemma CallbackDispatches(bot: Bot, store: Store, sender: UserId, data: string,
                           parse: string -> Option<real>, env: CallbackEnv)
    ensures var r := HandleCallback(bot, store, sender, data, parse, env);
      && |Posts(r.effects)| <= 1
      && (|Posts(r.effects)| == 1 <==> ReachesDispatch(bot, store, sender, data, parse, env))
      && (|Posts(r.effects)| == 1 ==>
           var d := Posts(r.effects)[0];
           var session := store[sender];
           && d.url == ApiRepos + bot.ghRepo + "/dispatches"
           && d.eventType == DispatchEventType
           && d.clientPayload.videoUrl == FileUrl(bot.botToken, env.getFile.body.filePath.value)
           && d.clientPayload.speed == parse(SpeedField(data)).value
           && ParseInt(d.clientPayload.chatId) == Some(session.chatId)
           && ParseInt(d.clientPayload.messageId) == Some(session.messageId))
  {
    var t := CallbackTry(bot, store, sender, data, parse, env);
    CallbackTryFacts(bot, store, sender, data, parse, env);
    if t.Raised? {
      ProjectionsDistribute(t.effects, [Edit(UnexpectedError)]);
      assert Posts([Edit(UnexpectedError)]) == [];
    }
    if ReachesLookup(bot, store, sender, data, parse, env) {
      ResolverResultIsUnambiguous(bot.botToken, store[sender].fileRef, env.getFile);
    }
  }

  /** "cancel" always forgets the sender's upload, whether or not there was
      one, and neither looks anything up nor dispatches; when the menu message
      can be read its first edit says the operation was cancelled. */
  lemma CancelForgetsUpload(bot: Bot, store: Store, sender: UserId,
                            parse: string -> Option<real>, env: CallbackEnv)
    ensures var r := HandleCallback(bot, store, sender, CancelData, parse, env);
      && r.store == Remove(store, sender)
      && Fetches(r.effects) == [] && Posts(r.effects) == []
      && (env.messageFetched ==> r.effects[0] == Edit(Cancelled))
  {
    CallbackKeepsOrForgets(bot, store, sender, CancelData, parse, env);
    CallbackLookups(bot, store, sender, CancelData, parse, env);
    CallbackDispatches(bot, store, sender, CancelData, parse, env);
  }

  /** An exception raised in the try block ends with the "unexpected error"
      edit after whatever the block had done. */
  lemma ExceptionIsReported(bot: Bot, store: Store, sender: UserId, data: string,
                            parse: string -> Option<real>, env: CallbackEnv)
    requires CallbackTry(bot, store, sender, data, parse, env).Raised?
    ensures var r := HandleCallback(bot, store, sender, data, parse, env);
      && |r.effects| >= 1 && r.effects[|r.effects| - 1] == Edit(UnexpectedError)
      && sender !in r.store
  {
  }

  /** Uploading a video and then pressing a speed button never posts a
      dispatch: the session holds the numeric media id, which the lookup
      cannot use, so the press ends with the "failed to get video URL" path
      and the upload is forgotten. */
  lemma UploadThenSpeedNeverDispatches(bot: Bot, store: Store, u: Upload, replyFails: bool,
                                       data: string, parse: string -> Option<real>, env: CallbackEnv)
    requires u.size <= MaxFileSize
    ensures var r := HandleCallback(bot, HandleUpload(store, u, replyFails).store, u.sender, data, parse, env);
      && Posts(r.effects) == []
      && (IsSpeedData(data) ==> u.sender !in r.store || bot.Client().None?)
  {
    var s := HandleUpload(store, u, replyFails).store;
    assert !ResolvesToUrl(s[u.sender].fileRef, env.getFile);
    CallbackDispatches(bot, s, u.sender, data, parse, env);
    CallbackKeepsOrForgets(bot, s, u.sender, data, parse, env);
    var r := HandleCallback(bot, s, u.sender, data, parse, env);
    assert |Posts(r.effects)| == 0;
  }

  /** Button data that is neither "cancel" nor "speed_..." is ignored once
      the menu message has been read: no store change and no effect. */
  lemma UnknownDataChangesNothing(bot: Bot, store: Store, sender: UserId, data: string,
                                  parse: string -> Option<real>, env: CallbackEnv)
    requires env.messageFetched && data != CancelData && !IsSpeedData(data)
    ensures HandleCallback(bot, store, sender, data, parse, env) == CallbackResult(store, [])
  {
  }
}

=== FILE: github.dfy ===
/**
  The bot's HTTP client side: resolving an uploaded file to a direct download
  URL through the Telegram Bot API, and asking GitHub to start the processing
  workflow with a `repository_dispatch` event. The HTTP exchanges themselves
  are not modelled; what the server answered is an input.
 */
module GitHubActions {
  import opened Wrappers
  import opened Text

  /** What the session remembers as the file's id. Telegram's MTProto media
      ids are integers; the Bot API expects a text id. */
  datatype FileRef = TextRef(text: string) | NumericRef(number: int)

  /** The `description` member of a failed getFile answer. */
  datatype Description = Absent | TextDescription(text: string) | NonTextDescription

  /** The body of a getFile answer: not JSON at all, JSON that is not an
      object, or an object with the members the resolver reads. */
  datatype GetFileBody =
    | NotJson
    | NotObject
    | FileObject(ok: bool, description: Description, filePath: Option<string>)

  /** A getFile request either fails in transport or gets an answer. */
  datatype GetFileReply = NetworkFailure | Answered(status: int, body: GetFileBody)

  const TooBigPhrase: string := "file is too big"
  const InvalidIdPhrase: string := "invalid file id"
  const WrongIdPhrase: string := "wrong file id"
  const UnknownError: string := "Unknown error"

  /** The marker strings the resolver returns instead of a URL. */
  const FileTooBigMarker: string := "FILE_TOO_BIG"
  const InvalidFileIdMarker: string := "INVALID_FILE_ID"
  const WrongFileIdMarker: string := "WRONG_FILE_ID"

  const FileUrlPrefix: string := "https://api.telegram.org/file/bot"

  function FileUrl(botToken: string, filePath: string): string {
    FileUrlPrefix + botToken + "/" + filePath
  }

  /** Which marker, if any, a failure description earns: the three phrases are
      tried in this order, each as a case-sensitive substring. */
  function ClassifyFailure(description: string): (r: Option<string>)
    ensures r == Some(FileTooBigMarker) <==> Contains(description, TooBigPhrase)
    ensures r == Some(InvalidFileIdMarker) <==>
      !Contains(description, TooBigPhrase) && Contains(description, InvalidIdPhrase)
    ensures r == Some(WrongFileIdMarker) <==>
      !Contains(description, TooBigPhrase) && !Contains(description, InvalidIdPhrase)
      && Contains(description, WrongIdPhrase)
    ensures r.None? <==>
      !Contains(description, TooBigPhrase) && !Contains(description, InvalidIdPhrase)
      && !Contains(description, WrongIdPhrase)
  {
    if Contains(description, TooBigPhrase) then Some(FileTooBigMarker)
    else if Contains(description, InvalidIdPhrase) then Some(InvalidFileIdMarker)
    else if Contains(description, WrongIdPhrase) then Some(WrongFileIdMarker)
    else None
  }

  /** A failed answer without a description is reported as "Unknown error",
      which matches none of the phrases. */
  lemma UnknownErrorHasNoMarker()
    ensures ClassifyFailure(UnknownError).None?
  {
    ContainsNeedsRoom(UnknownError, TooBigPhrase);
    ContainsNeedsRoom(UnknownError, InvalidIdPhrase);
    ContainsNeedsRoom(UnknownError, WrongIdPhrase);
  }

  /** The resolver's result for an answer with `ok` false: a description that
      is not text cannot be searched, so it fails like any other error. */
  function FailureResult(description: Description): (r: Option<string>)
    ensures !description.TextDescription? ==> r.None?
    ensures description.TextDescription? ==> r == ClassifyFailure(description.text)
  {
    match description
      case Absent => UnknownErrorHasNoMarker(); ClassifyFailure(UnknownError)
      case TextDescription(text) => ClassifyFailure(text)
      case NonTextDescription => None
  }

  /**
    `get_direct_video_url`: None for every failure (a numeric id, which
    cannot be sliced for the log line; a transport error; a status other than
    200; a body that is not JSON or not an object; a non-text description;
    a missing file path), a marker string for the three recognised failure
    descriptions, and otherwise the direct download URL.
   */
  function GetDirectVideoUrl(botToken: string, fileRef: FileRef, reply: GetFileReply): (r: Option<string>)
    ensures fileRef.NumericRef? ==> r.None?
    ensures reply.NetworkFailure? ==> r.None?
    ensures reply.Answered? && reply.status != 200 ==> r.None?
    ensures (fileRef.TextRef? && reply.Answered? && reply.status == 200 && reply.body.FileObject?
             && !reply.body.ok && reply.body.description.TextDescription?)
            ==> r == ClassifyFailure(reply.body.description.text)
    ensures (reply.Answered? && reply.body.FileObject? && !reply.body.ok
             && !reply.body.description.TextDescription?) ==> r.None?
    ensures reply.Answered? && !reply.body.FileObject? ==> r.None?
    ensures (reply.Answered? && reply.body.FileObject? && reply.body.ok
             && reply.body.filePath.None?) ==> r.None?
    ensures r.Some? ==> ResolvesToUrl(fileRef, reply) || IsMarker(r.value)
  {
    if fileRef.NumericRef? then None
    else match reply
      case NetworkFailure => None
      case Answered(status, body) =>
        if status != 200 then None
        else match body
          case NotJson => None
          case NotObject => None
          case FileObject(ok, description, filePath) =>
            if !ok then FailureResult(description)
            else match filePath
              case None => None
              case Some(path) => Some(FileUrl(botToken, path))
  }

  /** The answers for which the resolver produces a download URL. */
  predicate ResolvesToUrl(fileRef: FileRef, reply: GetFileReply) {
    fileRef.TextRef? && reply.Answered? && reply.status == 200
    && reply.body.FileObject? && reply.body.ok && reply.body.filePath.Some?
  }

  predicate IsMarker(s: string) {
    s == FileTooBigMarker || s == InvalidFileIdMarker || s == WrongFileIdMarker
  }

  /** The resolver's string result never confuses a URL with a marker: it is a
      usable URL exactly for the successful answers, and then it is the file's
      URL, from which the file path can be read back. */
  lemma {:induction false} ResolverResultIsUnambiguous(botToken: string, fileRef: FileRef, reply: GetFileReply)
    ensures var r := GetDirectVideoUrl(botToken, fileRef, reply);
      (r.Some? && r.value != "" && !IsMarker(r.value)) <==> ResolvesToUrl(fileRef, reply)
    ensures var r := GetDirectVideoUrl(botToken, fileRef, reply);
      ResolvesToUrl(fileRef, reply) ==>
        r == Some(FileUrl(botToken, reply.body.filePath.value))
        && IsPrefix(FileUrlPrefix + botToken + "/", r.value)
        && r.value[|FileUrlPrefix + botToken + "/"|..] == reply.body.filePath.value
  {
    if ResolvesToUrl(fileRef, reply) {
      var url := FileUrl(botToken, reply.body.filePath.value);
      UrlIsNoMarker(botToken, reply.body.filePath.value);
      assert url[..|FileUrlPrefix + botToken + "/"|] == FileUrlPrefix + botToken + "/";
    } else if fileRef.TextRef? && reply.Answered? && reply.status == 200 && reply.body.FileObject? && !reply.body.ok {
      FailureGivesNoUrl(reply.body.description);
    }
  }

  /** A download URL is never empty and never one of the markers. */
  lemma UrlIsNoMarker(botToken: string, filePath: string)
    ensures FileUrl(botToken, filePath) != "" && !IsMarker(FileUrl(botToken, filePath))
  {
    var url := FileUrl(botToken, filePath);
    assert url[0] == 'h';
    assert FileTooBigMarker[0] == 'F' && InvalidFileIdMarker[0] == 'I' && WrongFileIdMarker[0] == 'W';
  }

  /** A failed answer yields nothing or a marker, never a URL. */
  lemma FailureGivesNoUrl(description: Description)
    ensures FailureResult(description).None? || IsMarker(FailureResult(description).value)
  {
    if description.TextDescription? {
      var r := ClassifyFailure(description.text);
      assert r.Some? ==> r == Some(FileTooBigMarker) || r == Some(InvalidFileIdMarker) || r == Some(WrongFileIdMarker);
    } else if description.Absent? {
      UnknownErrorHasNoMarker();
    }
  }

  /** The failure markers appear exactly for a failed answer whose description
      (or its "Unknown error" default) names one of the three phrases. */
  lemma MarkerOnlyForDescribedFailure(botToken: string, fileRef: FileRef, reply: GetFileReply)
    ensures var r := GetDirectVideoUrl(botToken, fileRef, reply);
      r.Some? && IsMarker(r.value) <==>
        fileRef.TextRef? && reply.Answered? && reply.status == 200
        && reply.body.FileObject? && !reply.body.ok
        && reply.body.description.TextDescription?
        && ClassifyFailure(reply.body.description.text).Some?
  {
    var r := GetDirectVideoUrl(botToken, fileRef, reply);
    if fileRef.NumericRef? || reply.NetworkFailure? || reply.status != 200 || !reply.body.FileObject? {
      assert r.None?;
    } else if reply.body.ok {
      if reply.body.filePath.Some? {
        UrlIsNoMarker(botToken, reply.body.filePath.value);
      }
    } else {
      var d := reply.body.description;
      assert r == FailureResult(d);
      if d.Absent? {
        UnknownErrorHasNoMarker();
      } else if d.TextDescription? {
        FailureGivesNoUrl(d);
      }
    }
  }

  /** `GitHubActionsClient`: a token and an `owner/name` repository. */
  datatype GitHubClient = GitHubClient(token: string, repo: string)

  /** The bot builds a client only when both settings are non-empty; an unset
      environment variable reads as the empty string here. */
  function ClientFromConfig(ghToken: string, ghRepo: string): (c: Option<GitHubClient>)
    ensures c.Some? <==> ghToken != "" && ghRepo != ""
    ensures c.Some? ==> c.value.token == ghToken && c.value.repo == ghRepo
  {
    if ghToken != "" && ghRepo != "" then Some(GitHubClient(ghToken, ghRepo)) else None
  }

  const ApiRepos: string := "https://api.github.com/repos/"
  const DispatchEventType: string := "process_video"

  /** The `client_payload` of the dispatch. The speed is carried as a number;
      its decimal text is not modelled. The creation timestamp is left out. */
  datatype ClientPayload = ClientPayload(videoUrl: string, speed: real, chatId: string, messageId: string)

  datatype Dispatch = Dispatch(url: string, authorization: string, eventType: string, clientPayload: ClientPayload)

  /** What the POST to the dispatches endpoint produced. */
  datatype DispatchReply = TransportFailure | Status(code: int)

  /** The request the client sends, if any, and whether it reported success. */
  datatype TriggerOutcome = TriggerOutcome(attempt: Option<Dispatch>, success: bool)

  /** `trigger_video_workflow`: refuses without credentials; otherwise posts one
      dispatch and succeeds exactly on 204 No Content. */
  function TriggerVideoWorkflow(client: GitHubClient, videoUrl: string, speed: real,
                                chatId: int, messageId: int, reply: DispatchReply): (r: TriggerOutcome)
    ensures r.attempt.None? <==> client.token == "" || client.repo == ""
    ensures r.success <==> r.attempt.Some? && reply == Status(204)
    ensures r.attempt.Some? ==>
      var d := r.attempt.value;
      && d.url == ApiRepos + client.repo + "/dispatches"
      && IsPrefix(ApiRepos + client.repo, d.url)
      && d.authorization == "token " + client.token
      && d.eventType == DispatchEventType
      && d.clientPayload.videoUrl == videoUrl
      && d.clientPayload.speed == speed
      && ParseInt(d.clientPayload.chatId) == Some(chatId)
      && ParseInt(d.clientPayload.messageId) == Some(messageId)
  {
    if client.token == "" || client.repo == "" then TriggerOutcome(None, false)
    else
      var d := DispatchRequest(client, videoUrl, speed, chatId, messageId);
      TriggerOutcome(Some(d), reply == Status(204))
  }

  /** The `repository_dispatch` request for one video: the repository's
      dispatch endpoint, the token header, the event type and the payload,
      whose ids are sent as decimal text that reads back as the same ids. */
  function DispatchRequest(client: GitHubClient, videoUrl: string, speed: real,
                           chatId: int, messageId: int): (d: Dispatch)
    ensures d.url == ApiRepos + client.repo + "/dispatches"
    ensures IsPrefix(ApiRepos + client.repo, d.url)
    ensures d.authorization == "token " + client.token
    ensures d.eventType == DispatchEventType
    ensures d.clientPayload.videoUrl == videoUrl
    ensures d.clientPayload.speed == speed
    ensures ParseInt(d.clientPayload.chatId) == Some(chatId)
    ensures ParseInt(d.clientPayload.messageId) == Some(messageId)
  {
    var payload := ClientPayload(videoUrl, speed, IntToText(chatId), IntToText(messageId));
    var d := Dispatch(ApiRepos + client.repo + "/dispatches", "token " + client.token, DispatchEventType, payload);
    IntToTextRoundTrip(chatId);
    IntToTextRoundTrip(messageId);
    assert d.url[..|ApiRepos + client.repo|] == ApiRepos + client.repo;
    d
  }

  /** A client the bot built from its configuration always gets past the
      credentials check, so every trigger through it sends a dispatch. */
  lemma ConfiguredClientAlwaysDispatches(ghToken: string, ghRepo: string, videoUrl: string,
                                         speed: real, chatId: int, messageId: int, reply: DispatchReply)
    requires ClientFromConfig(ghToken, ghRepo).Some?
    ensures var r := TriggerVideoWorkflow(ClientFromConfig(ghToken, ghRepo).value, videoUrl, speed, chatId, messageId, reply);
      r.attempt.Some? && r.attempt.value.authorization == "token " + ghToken
      && r.attempt.value.url == ApiRepos + ghRepo + "/dispatches"
  {
  }
}

=== FILE: sessions.dfy ===
/**
  The per-user session store and the upload handler: a video (or a document
  whose MIME type mentions video) up to the size limit is remembered for its
  sender, replacing any earlier one, and answered with the speed menu.
 */
module Sessions {
  import opened Wrappers
  import opened Text
  import opened GitHubActions

  type UserId = int

  /** The largest accepted upload, 2 GiB, in bytes. */
  const MaxFileSize: nat := 2 * 1024 * 1024 * 1024
  const BytesPerMegabyte: real := 1048576.0
  const DefaultFileName: string := "video.mp4"

  datatype MediaKind = VideoMedia | DocumentMedia

  /** What the bot remembers about a user's latest upload. The media object
      and the arrival time are stored by `video_handler` but never read back, so
      they are not modelled. */
  datatype Session = Session(fileRef: FileRef, fileName: string, fileSizeMb: real,
                             chatId: int, messageId: int, kind: MediaKind)

  type Store = map<UserId, Session>

  /** A button under the menu message and the callback data it sends. */
  datatype Button = Button(caption: string, data: string)

  const CancelData: string := "cancel"
  const SpeedPrefix: string := "speed_"

  /** The speeds offered on the menu, as the text their buttons carry. */
  const SpeedChoices: seq<string> := ["0.5", "0.75", "1.25", "1.5", "2.0", "3.0"]

  function SpeedButton(speedText: string): Button {
    Button(speedText + "x", SpeedPrefix + speedText)
  }

  const SpeedOptions: seq<seq<Button>> := [
    [SpeedButton(SpeedChoices[0]), SpeedButton(SpeedChoices[1])],
    [SpeedButton(SpeedChoices[2]), SpeedButton(SpeedChoices[3])],
    [SpeedButton(SpeedChoices[4]), SpeedButton(SpeedChoices[5])],
    [Button("❌ Cancel", CancelData)]
  ]

  function AsciiLower(c: char): (l: char)
    ensures 'A' <= c <= 'Z' ==> l != c && 'a' <= l <= 'z'
    ensures !('A' <= c <= 'Z') ==> l == c
  {
    if 'A' <= c <= 'Z' then (c - 'A' + 'a') as char else c
  }

  function Lower(s: string): (l: string)
    ensures |l| == |s|
    ensures forall i :: 0 <= i < |s| ==> l[i] == AsciiLower(s[i])
  {
    seq(|s|, i requires 0 <= i < |s| => AsciiLower(s[i]))
  }

  /** The event filter of the upload handler: a video, or a document whose
      MIME type contains "video" in any letter case. Case folding is modelled
      for ASCII letters only. */
  predicate IsVideoMessage(hasVideo: bool, documentMime: Option<string>)
    ensures documentMime.Some? && IsPrefix("video", Lower(documentMime.value)) ==> IsVideoMessage(hasVideo, documentMime)
    ensures IsVideoMessage(hasVideo, documentMime) ==> hasVideo || (documentMime.Some? && |documentMime.value| >= 5)
  {
    hasVideo || (documentMime.Some? && documentMime.value != "" && Contains(Lower(documentMime.value), "video"))
  }

  lemma LowerIsIdempotent(s: string)
    ensures Lower(Lower(s)) == Lower(s)
  {
  }

  /** The filter ignores letter case in the MIME type. */
  lemma FilterIgnoresCase(hasVideo: bool, mime: string)
    ensures IsVideoMessage(hasVideo, Some(mime)) == IsVideoMessage(hasVideo, Some(Lower(mime)))
  {
    LowerIsIdempotent(mime);
  }

  /** A message that passed the filter, with the fields the handler reads. */
  datatype Upload = Upload(sender: UserId, kind: MediaKind, mediaId: int, fileName: Option<string>,
                           size: nat, chatId: int, messageId: int)

  datatype UploadReply =
    | TooLarge(sizeMb: real, limitMb: real)
    | SpeedMenu(fileName: string, sizeMb: real, kind: MediaKind, buttons: seq<seq<Button>>)
    | HandlerError

  datatype UploadResult = UploadResult(store: Store, reply: UploadReply)

  function SessionOf(u: Upload): Session {
    Session(NumericRef(u.mediaId), u.fileName.GetOr(DefaultFileName),
            u.size as real / BytesPerMegabyte, u.chatId, u.messageId, u.kind)
  }

  /**
    `video_handler`: a file over the limit is refused and nothing is stored;
    otherwise the sender's session becomes this upload. When sending the reply
    raises, the handler answers with an error instead, but a session stored
    before the reply stays stored.
   */
  function HandleUpload(store: Store, u: Upload, replyFails: bool): (r: UploadResult)
    ensures u.size > MaxFileSize ==> r.store == store
    ensures u.size <= MaxFileSize ==> r.store.Keys == store.Keys + {u.sender}
    ensures forall v :: v != u.sender && v in store ==> v in r.store && r.store[v] == store[v]
    ensures r.reply.HandlerError? <==> replyFails
    ensures !replyFails ==> (r.reply.TooLarge? <==> u.size > MaxFileSize)
    ensures u.sender in r.store && u.size <= MaxFileSize ==>
      var s := r.store[u.sender];
      && s.fileRef == NumericRef(u.mediaId)
      && (u.fileName.Some? ==> s.fileName == u.fileName.value)
      && (u.fileName.None? ==> s.fileName == DefaultFileName)
      && s.fileSizeMb * BytesPerMegabyte == u.size as real
      && s.chatId == u.chatId && s.messageId == u.messageId && s.kind == u.kind
  {
    var sizeMb := u.size as real / BytesPerMegabyte;
    if u.size > MaxFileSize then
      UploadResult(store, if replyFails then HandlerError else TooLarge(sizeMb, MaxFileSize as real / BytesPerMegabyte))
    else
      var session := SessionOf(u);
      UploadResult(store[u.sender := session],
                   if replyFails then HandlerError else SpeedMenu(session.fileName, sizeMb, u.kind, SpeedOptions))
  }

  /** The limit is inclusive: exactly 2 GiB is accepted, one byte more is not. */
  lemma SizeLimitIsInclusive(store: Store, u: Upload)
    ensures u.size == MaxFileSize ==> u.sender in HandleUpload(store, u, false).store
    ensures u.size == MaxFileSize + 1 ==> HandleUpload(store, u, false).reply == TooLarge(u.size as real / BytesPerMegabyte, 2048.0)
  {
  }

  /** A second upload replaces the first: only the latest file is remembered. */
  lemma LatestUploadWins(store: Store, first: Upload, second: Upload, fails1: bool, fails2: bool)
    requires first.sender == second.sender
    requires first.size <= MaxFileSize && second.size <= MaxFileSize
    ensures HandleUpload(HandleUpload(store, first, fails1).store, second, fails2).store
         == HandleUpload(store, second, fails2).store
  {
  }

  /** `del user_sessions[user_id]` guarded by a membership test. */
  function Remove(store: Store, user: UserId): (r: Store)
    ensures r.Keys == store.Keys - {user}
    ensures forall v :: v in r ==> r[v] == store[v]
  {
    store - {user}
  }

  lemma RemoveIsIdempotent(store: Store, user: UserId)
    ensures Remove(Remove(store, user), user) == Remove(store, user)
    ensures user !in store ==> Remove(store, user) == store
  {
  }

  /** A session created by an upload holds the numeric media id, which the
      resolver cannot use: every lookup for it comes back empty. */
  lemma UploadedSessionsNeverResolve(store: Store, u: Upload, replyFails: bool, botToken: string, reply: GetFileReply)
    requires u.size <= MaxFileSize
    ensures GetDirectVideoUrl(botToken, HandleUpload(store, u, replyFails).store[u.sender].fileRef, reply).None?
  {
  }

  /** A speed button's data splits on "_" into the prefix word and the speed
      text, so the handler reads back exactly the offered speed. */
  lemma {:induction false} SpeedButtonField(speedText: string)
    requires '_' !in speedText
    ensures Split(SpeedButton(speedText).data, '_') == ["speed", speedText]
  {
    assert SpeedButton(speedText).data == "speed" + ['_'] + speedText;
    SplitAtFirst("speed", '_', speedText);
    SplitWithoutSeparator(speedText, '_');
  }

  /** Every button of the speed menu reads back as the speed it offers. */
  lemma MenuSpeedsReadBack()
    ensures forall i :: 0 <= i < |SpeedChoices| ==> Split(SpeedButton(SpeedChoices[i]).data, '_') == ["speed", SpeedChoices[i]]
  {
    forall i | 0 <= i < |SpeedChoices|
      ensures Split(SpeedButton(SpeedChoices[i]).data, '_') == ["speed", SpeedChoices[i]]
    {
      assert '_' !in SpeedChoices[i];
      SpeedButtonField(SpeedChoices[i]);
    }
  }
}

=== FILE: tempo.dfy ===
/**
  The audio side of the speed change in process_video.py: the `atempo` filter
  accepts one multiplier in [0.5, 2.0] per stage, so `create_audio_filter`
  chains stages whose product is the requested speed.  The video side is a
  single presentation-timestamp factor of 1/speed.  Speeds are exact reals.
 */
module TempoChain {

  /** Bounds the `atempo` filter accepts for a single stage. */
  const MinStage: real := 0.5
  const MaxStage: real := 2.0

  predicate InStageRange(x: real) {
    MinStage <= x <= MaxStage
  }

  predicate AllInStageRange(stages: seq<real>) {
    forall i :: 0 <= i < |stages| ==> InStageRange(stages[i])
  }

  /** Chained stages compose by multiplication. */
  function Product(stages: seq<real>): real {
    if |stages| == 0 then 1.0 else stages[0] * Product(stages[1..])
  }

  /** k copies of the same stage. */
  function Repeat(x: real, k: nat): (r: seq<real>)
    ensures |r| == k
    ensures forall i :: 0 <= i < k ==> r[i] == x
  {
    if k == 0 then [] else Repeat(x, k - 1) + [x]
  }

  lemma RepeatCons(x: real, k: nat)
    ensures [x] + Repeat(x, k) == Repeat(x, k + 1)
  {
  }

  /** x * 2^n, written as the accumulator of the doubling loop after n iterations. */
  function Doubled(x: real, n: nat): real
    decreases n
  {
    if n == 0 then x else Doubled(2.0 * x, n - 1)
  }

  lemma {:induction false} DoubledScales(x: real, n: nat)
    ensures Doubled(2.0 * x, n) == 2.0 * Doubled(x, n)
    decreases n
  {
    if n > 0 {
      DoubledScales(2.0 * x, n - 1);
    }
  }

  lemma {:induction false} DoubledGrows(x: real, n: nat)
    requires x > 0.0
    ensures n == 0 ==> Doubled(x, n) == x
    ensures n > 0 ==> Doubled(x, n) >= 2.0 * x
    decreases n
  {
    if n > 1 {
      DoubledGrows(2.0 * x, n - 1);
    }
  }

  lemma FloorHalves(q: real)
    requires q > 2.0
    ensures (q / 2.0).Floor < q.Floor
  {
  }

  lemma ReciprocalHalves(r: real)
    requires 0.0 < r < 0.5
    ensures (1.0 / (2.0 * r)).Floor < (1.0 / r).Floor
  {
    assert 1.0 / (2.0 * r) == (1.0 / r) / 2.0;
    FloorHalves(1.0 / r);
  }

  /** The stages the `speed > 2.0` loop still emits when its accumulator is
      `remaining`: one 2.0 stage per halving, then the remainder. */
  function HalvingStages(remaining: real): (r: seq<real>)
    requires remaining > 1.0
    ensures |r| >= 1
    decreases remaining.Floor
  {
    if remaining > MaxStage then
      FloorHalves(remaining);
      [MaxStage] + HalvingStages(remaining / 2.0)
    else
      [remaining]
  }

  /** The stages the `speed < 0.5` loop still emits when its accumulator is
      `remaining`: one 0.5 stage per doubling, then the remainder. */
  function DoublingStages(remaining: real): (r: seq<real>)
    requires 0.0 < remaining < 1.0
    ensures |r| >= 1
    decreases (1.0 / remaining).Floor
  {
    if remaining < MinStage then
      ReciprocalHalves(remaining);
      [MinStage] + DoublingStages(2.0 * remaining)
    else
      [remaining]
  }

  /** Above 2.0 the stages are k copies of 2.0 followed by a remainder in (1, 2]
      that is the starting value halved k times. */
  lemma {:induction false} HalvingShape(remaining: real)
    requires remaining > 1.0
    ensures var r := HalvingStages(remaining); var k := |r| - 1;
      && r == Repeat(MaxStage, k) + [r[k]]
      && 1.0 < r[k] <= MaxStage
      && Doubled(r[k], k) == remaining
    decreases remaining.Floor
  {
    if remaining > MaxStage {
      FloorHalves(remaining);
      var tail := HalvingStages(remaining / 2.0);
      HalvingShape(remaining / 2.0);
      var k := |tail| - 1;
      RepeatCons(MaxStage, k);
      DoubledScales(tail[k], k);
      assert HalvingStages(remaining) == [MaxStage] + tail;
    }
  }

  /** Below 0.5 the stages are k copies of 0.5 followed by a remainder in [0.5, 1)
      that is the starting value doubled k times. */
  lemma {:induction false} DoublingShape(remaining: real)
    requires 0.0 < remaining < 1.0
    ensures var r := DoublingStages(remaining); var k := |r| - 1;
      && r == Repeat(MinStage, k) + [r[k]]
      && MinStage <= r[k] < 1.0
      && r[k] == Doubled(remaining, k)
    decreases (1.0 / remaining).Floor
  {
    if remaining < MinStage {
      ReciprocalHalves(remaining);
      var tail := DoublingStages(2.0 * remaining);
      DoublingShape(2.0 * remaining);
      RepeatCons(MinStage, |tail| - 1);
      assert DoublingStages(remaining) == [MinStage] + tail;
    }
  }

  /** The number of 2.0 stages is determined by the speed: it is the one k for
      which the speed halved k times lands in (1, 2]. */
  lemma {:induction false} HalvingStagesFromCount(speed: real, k: nat, last: real)
    requires 1.0 < last <= MaxStage
    requires Doubled(last, k) == speed
    ensures speed > 1.0
    ensures HalvingStages(speed) == Repeat(MaxStage, k) + [last]
    decreases k
  {
    DoubledGrows(last, k);
    if k > 0 {
      DoubledScales(last, k - 1);
      HalvingStagesFromCount(speed / 2.0, k - 1, last);
      RepeatCons(MaxStage, k - 1);
    }
  }

  /** The number of 0.5 stages is determined by the speed: it is the one k for
      which the speed doubled k times lands in [0.5, 1). */
  lemma {:induction false} DoublingStagesFromCount(speed: real, k: nat, last: real)
    requires speed > 0.0
    requires MinStage <= last < 1.0
    requires Doubled(speed, k) == last
    ensures speed < 1.0
    ensures DoublingStages(speed) == Repeat(MinStage, k) + [last]
    decreases k
  {
    DoubledGrows(speed, k);
    if k > 0 {
      DoublingStagesFromCount(2.0 * speed, k - 1, last);
      RepeatCons(MinStage, k - 1);
    }
  }

  lemma ProductCons(x: real, tail: seq<real>)
    ensures Product([x] + tail) == x * Product(tail)
  {
    assert ([x] + tail)[1..] == tail;
  }

  lemma {:induction false} HalvingProduct(remaining: real)
    requires remaining > 1.0
    ensures Product(HalvingStages(remaining)) == remaining
    decreases remaining.Floor
  {
    if remaining > MaxStage {
      FloorHalves(remaining);
      HalvingProduct(remaining / 2.0);
      ProductCons(MaxStage, HalvingStages(remaining / 2.0));
    }
  }

  lemma {:induction false} DoublingProduct(remaining: real)
    requires 0.0 < remaining < 1.0
    ensures Product(DoublingStages(remaining)) == remaining
    decreases (1.0 / remaining).Floor
  {
    if remaining < MinStage {
      ReciprocalHalves(remaining);
      DoublingProduct(2.0 * remaining);
      ProductCons(MinStage, DoublingStages(2.0 * remaining));
    }
  }

  /** The exact (unrounded) stage multipliers for a speed. */
  function AudioTempoChain(speed: real): (stages: seq<real>)
    requires speed > 0.0
    ensures |stages| >= 1
    ensures AllInStageRange(stages)
    ensures Product(stages) == speed
  {
    if speed > MaxStage then
      HalvingShape(speed);
      HalvingProduct(speed);
      HalvingStages(speed)
    else if speed < MinStage then
      DoublingShape(speed);
      DoublingProduct(speed);
      DoublingStages(speed)
    else
      [speed]
  }

  /** Exactly one stage, equal to the speed itself, iff the speed is already in range. */
  lemma SingleStageIffInRange(speed: real)
    requires speed > 0.0
    ensures AudioTempoChain(speed) == [speed] <==> InStageRange(speed)
    ensures |AudioTempoChain(speed)| == 1 <==> InStageRange(speed)
  {
    if speed > MaxStage {
      assert |HalvingStages(speed / 2.0)| >= 1;
    } else if speed < MinStage {
      assert |DoublingStages(2.0 * speed)| >= 1;
    }
  }

  /** Above 2.0: k stages of exactly 2.0 (k >= 1), then speed / 2^k in (1, 2]. */
  lemma FastChainShape(speed: real)
    requires speed > MaxStage
    ensures var c := AudioTempoChain(speed); var k := |c| - 1;
      && k >= 1
      && (forall i :: 0 <= i < k ==> c[i] == MaxStage)
      && 1.0 < c[k] <= MaxStage
      && Doubled(c[k], k) == speed
  {
    SingleStageIffInRange(speed);
    HalvingShape(speed);
  }

  /** Below 0.5: k stages of exactly 0.5 (k >= 1), then speed * 2^k in [0.5, 1). */
  lemma SlowChainShape(speed: real)
    requires 0.0 < speed < MinStage
    ensures var c := AudioTempoChain(speed); var k := |c| - 1;
      && k >= 1
      && (forall i :: 0 <= i < k ==> c[i] == MinStage)
      && MinStage <= c[k] < 1.0
      && c[k] == Doubled(speed, k)
  {
    SingleStageIffInRange(speed);
    DoublingShape(speed);
  }

  /** With a speed of zero or below the doubling loop's guard `remaining < 0.5`
      holds after any number of iterations: the loop never exits. */
  lemma {:induction false} DoublingNeverExits(remaining: real, n: nat)
    requires remaining <= 0.0
    ensures Doubled(remaining, n) <= 0.0 < MinStage
    decreases n
  {
    if n > 0 {
      DoublingNeverExits(2.0 * remaining, n - 1);
    }
  }

  /** The `:.2f` rendering of the last out-of-range stage, as a value:
      rounding half up to hundredths. */
  function RoundHundredths(x: real): (y: real)
    ensures x - 0.005 < y <= x + 0.005
    ensures (y * 100.0).Floor as real == y * 100.0
  {
    ((x * 100.0 + 0.5).Floor as real) / 100.0
  }

  lemma RoundKeepsStageRange(x: real)
    requires InStageRange(x)
    ensures InStageRange(RoundHundredths(x))
  {
    var n := (x * 100.0 + 0.5).Floor;
    assert n as real > 49.5;
    assert n >= 50;
    assert n as real <= 200.5;
    assert n <= 200;
  }

  /** The stage values the filter string carries: the in-range branch writes the
      speed unrounded, the two loops round their final remainder. */
  function FilterStages(speed: real): (stages: seq<real>)
    requires speed > 0.0
    ensures AllInStageRange(stages)
    ensures |stages| == |AudioTempoChain(speed)|
    ensures forall i :: 0 <= i < |stages| - 1 ==> stages[i] == AudioTempoChain(speed)[i]
    ensures InStageRange(speed) ==> stages == [speed]
    ensures !InStageRange(speed) ==>
      var c := AudioTempoChain(speed); var k := |stages| - 1;
      && c[k] - 0.005 < stages[k] <= c[k] + 0.005
      && (stages[k] * 100.0).Floor as real == stages[k] * 100.0
  {
    var chain := AudioTempoChain(speed);
    if InStageRange(speed) then
      chain
    else
      RoundKeepsStageRange(chain[|chain| - 1]);
      chain[..|chain| - 1] + [RoundHundredths(chain[|chain| - 1])]
  }

  lemma {:induction false} DoubledOrder(x: real, y: real, n: nat)
    ensures Doubled(x, n) <= Doubled(y, n) <==> x <= y
    decreases n
  {
    if n > 0 {
      DoubledOrder(2.0 * x, 2.0 * y, n - 1);
    }
  }

  /** Scaling the starting value by 1.01 or 0.99 scales the doubled value alike. */
  lemma {:induction false} DoubledOnePercent(x: real, n: nat)
    ensures Doubled(1.01 * x, n) == 1.01 * Doubled(x, n)
    ensures Doubled(0.99 * x, n) == 0.99 * Doubled(x, n)
    decreases n
  {
    if n > 0 {
      DoubledOnePercent(2.0 * x, n - 1);
    }
  }

  /** k stages of 2.0 and then x multiply to x * 2^k. */
  lemma {:induction false} ProductOfHalvingForm(k: nat, x: real)
    ensures Product(Repeat(MaxStage, k) + [x]) == Doubled(x, k)
    decreases k
  {
    if k > 0 {
      var rest := Repeat(MaxStage, k - 1) + [x];
      RepeatCons(MaxStage, k - 1);
      assert Repeat(MaxStage, k) + [x] == [MaxStage] + rest;
      ProductCons(MaxStage, rest);
      ProductOfHalvingForm(k - 1, x);
      DoubledScales(x, k - 1);
    }
  }

  /** k stages of 0.5 and then x multiply to x / 2^k. */
  lemma {:induction false} ProductOfDoublingForm(k: nat, x: real)
    ensures Doubled(Product(Repeat(MinStage, k) + [x]), k) == x
    decreases k
  {
    if k > 0 {
      var rest := Repeat(MinStage, k - 1) + [x];
      RepeatCons(MinStage, k - 1);
      assert Repeat(MinStage, k) + [x] == [MinStage] + rest;
      ProductCons(MinStage, rest);
      ProductOfDoublingForm(k - 1, x);
      assert 2.0 * (MinStage * Product(rest)) == Product(rest);
    }
  }

  /** Rounding the last stage moves the overall speed by at most 1%. */
  lemma FilterProductWithinOnePercent(speed: real)
    requires speed > 0.0
    ensures speed * 0.99 <= Product(FilterStages(speed)) <= speed * 1.01
  {
    var chain := AudioTempoChain(speed);
    var k := |chain| - 1;
    var last := chain[k];
    var rounded := RoundHundredths(last);
    if speed > MaxStage {
      HalvingShape(speed);
      HalvingProduct(speed);
      assert FilterStages(speed) == Repeat(MaxStage, k) + [rounded];
      ProductOfHalvingForm(k, rounded);
      assert Doubled(last, k) == speed;
      DoubledOnePercent(last, k);
      DoubledOrder(rounded, 1.01 * last, k);
      DoubledOrder(0.99 * last, rounded, k);
    } else if speed < MinStage {
      DoublingShape(speed);
      assert FilterStages(speed) == Repeat(MinStage, k) + [rounded];
      var f := Product(FilterStages(speed));
      ProductOfDoublingForm(k, rounded);
      assert Doubled(f, k) == rounded;
      assert last == Doubled(speed, k);
      DoubledOnePercent(speed, k);
      DoubledOrder(f, 1.01 * speed, k);
      DoubledOrder(0.99 * speed, f, k);
    }
  }

  /** The `speed > 2.0` loop: emit 2.0 and halve until the remainder is at most
      2.0.  The emitted stages are k copies of 2.0, whose product is 2^k, so the
      invariant "product of the emitted stages times the remainder is the speed"
      reads Doubled(remaining, k) == speed. */
  method EmitHalvings(speed: real) returns (stages: seq<real>, remaining: real)
    requires speed > MaxStage
    ensures stages + [remaining] == HalvingStages(speed)
  {
    stages := [];
    remaining := speed;
    while remaining > MaxStage
      invariant remaining > 1.0
      invariant stages == Repeat(MaxStage, |stages|)
      invariant Doubled(remaining, |stages|) == speed
      invariant Product(stages + [remaining]) == speed
      decreases remaining.Floor
    {
      FloorHalves(remaining);
      assert 2.0 * (remaining / 2.0) == remaining;
      stages := stages + [MaxStage];
      remaining := remaining / 2.0;
      ProductOfHalvingForm(|stages|, remaining);
    }
    HalvingStagesFromCount(speed, |stages|, remaining);
  }

  /** The `speed < 0.5` loop: emit 0.5 and double until the remainder is at
      least 0.5.  The emitted stages are k copies of 0.5, whose product is 2^-k,
      so the invariant "product of the emitted stages times the remainder is the
      speed" reads remaining == Doubled(speed, k). */
  method EmitDoublings(speed: real) returns (stages: seq<real>, remaining: real)
    requires 0.0 < speed < MinStage
    ensures stages + [remaining] == DoublingStages(speed)
  {
    stages := [];
    remaining := speed;
    while remaining < MinStage
      invariant 0.0 < remaining < 1.0
      invariant stages == Repeat(MinStage, |stages|)
      invariant remaining == Doubled(speed, |stages|)
      invariant Product(stages + [remaining]) == speed
      decreases (1.0 / remaining).Floor
    {
      ReciprocalHalves(remaining);
      DoubledScales(speed, |stages|);
      stages := stages + [MinStage];
      remaining := 2.0 * remaining;
      ProductOfDoublingForm(|stages|, remaining);
      DoubledOrder(Product(stages + [remaining]), speed, |stages|);
      DoubledOrder(speed, Product(stages + [remaining]), |stages|);
    }
    DoublingStagesFromCount(speed, |stages|, remaining);
  }

  /** `create_audio_filter`: the stage values of the filter string it builds. */
  method BuildAudioFilter(speed: real) returns (stages: seq<real>)
    requires speed > 0.0
    ensures stages == FilterStages(speed)
    ensures AllInStageRange(stages)
  {
    if speed > MaxStage {
      var emitted, remaining := EmitHalvings(speed);
      stages := emitted + [RoundHundredths(remaining)];
      assert emitted == HalvingStages(speed)[..|emitted|];
    } else if speed < MinStage {
      var emitted, remaining := EmitDoublings(speed);
      stages := emitted + [RoundHundredths(remaining)];
      assert emitted == DoublingStages(speed)[..|emitted|];
    } else {
      stages := [speed];
    }
  }

  /** The `setpts` factor of the video filter. */
  function PtsFactor(speed: real): (f: real)
    requires speed > 0.0
    ensures f > 0.0
    ensures f * speed == 1.0
  {
    1.0 / speed
  }

  /** Audio and video are sped up by nearly the same amount: the filter the
      job builds, rounded last stage included, times the timestamp factor is
      within 1% of 1. */
  lemma AudioMatchesVideo(speed: real)
    requires speed > 0.0
    ensures 0.99 <= Product(FilterStages(speed)) * PtsFactor(speed) <= 1.01
  {
    FilterProductWithinOnePercent(speed);
    ScaledTolerance(speed, Product(FilterStages(speed)), PtsFactor(speed));
  }

  /** Scaling a value within 1% of `speed` by the reciprocal of `speed`. */
  lemma ScaledTolerance(speed: real, p: real, f: real)
    requires f > 0.0 && f * speed == 1.0
    requires speed * 0.99 <= p <= speed * 1.01
    ensures 0.99 <= p * f <= 1.01
  {
    assert (speed * 0.99) * f == 0.99 * (speed * f);
    assert (speed * 1.01) * f == 1.01 * (speed * f);
    assert (speed * 0.99) * f <= p * f <= (speed * 1.01) * f;
  }

  lemma ChainExamples()
    ensures AudioTempoChain(3.0) == [2.0, 1.5]
    ensures AudioTempoChain(5.0) == [2.0, 2.0, 1.25]
    ensures AudioTempoChain(0.2) == [0.5, 0.5, 0.8]
    ensures AudioTempoChain(1.5) == [1.5]
    ensures FilterStages(5.0) == [2.0, 2.0, 1.25]
    ensures PtsFactor(1.5) * 1.5 == 1.0
  {
    assert HalvingStages(1.5) == [1.5];
    assert HalvingStages(1.25) == [1.25];
    assert HalvingStages(2.5) == [2.0] + HalvingStages(1.25);
    assert HalvingStages(3.0) == [2.0] + HalvingStages(1.5);
    assert HalvingStages(5.0) == [2.0] + HalvingStages(2.5);
    assert DoublingStages(0.8) == [0.8];
    assert DoublingStages(0.4) == [0.5] + DoublingStages(0.8);
    assert DoublingStages(0.2) == [0.5] + DoublingStages(0.4);
    assert (1.25 * 100.0 + 0.5).Floor == 125;
  }
}

=== FILE: text.dfy ===
/**
  String operations the bot relies on: Python's case-sensitive `needle in hay`,
  `str.startswith`, and `str(n)` for the integer routing identifiers.
 */
module Text {
  import opened Wrappers

  predicate IsPrefix(p: string, s: string) {
    |p| <= |s| && s[..|p|] == p
  }

  /** `needle in hay`: tries each starting position from left to right. */
  predicate Contains(hay: string, needle: string)
    ensures Contains(hay, needle) ==> |needle| <= |hay|
    ensures |needle| == 0 ==> Contains(hay, needle)
    decreases |hay|
  {
    IsPrefix(needle, hay) || (|hay| > 0 && Contains(hay[1..], needle))
  }

  /** `needle` occurs in `hay` starting at position i. */
  ghost predicate OccursAt(hay: string, needle: string, i: int) {
    0 <= i && i + |needle| <= |hay| && hay[i..i + |needle|] == needle
  }

  /** An occurrence at position i is found by the left-to-right scan. */
  lemma {:induction false} OccursImpliesContains(hay: string, needle: string, i: int)
    requires OccursAt(hay, needle, i)
    ensures Contains(hay, needle)
    decreases i
  {
    if i > 0 {
      assert hay[1..][i - 1..i - 1 + |needle|] == hay[i..i + |needle|];
      OccursImpliesContains(hay[1..], needle, i - 1);
    }
  }

  /** The scan succeeds only at a real occurrence. */
  lemma {:induction false} ContainsImpliesOccurs(hay: string, needle: string) returns (i: int)
    requires Contains(hay, needle)
    ensures OccursAt(hay, needle, i)
    decreases |hay|
  {
    if IsPrefix(needle, hay) {
      i := 0;
    } else {
      var j := ContainsImpliesOccurs(hay[1..], needle);
      assert hay[j + 1..j + 1 + |needle|] == hay[1..][j..j + |needle|];
      i := j + 1;
    }
  }

  lemma ContainsIffOccurs(hay: string, needle: string)
    ensures Contains(hay, needle) <==> exists i :: OccursAt(hay, needle, i)
  {
    if Contains(hay, needle) {
      var i := ContainsImpliesOccurs(hay, needle);
    }
    if exists i :: OccursAt(hay, needle, i) {
      var i :| OccursAt(hay, needle, i);
      OccursImpliesContains(hay, needle, i);
    }
  }

  /** A needle longer than the haystack never occurs; one of the same length
      occurs only as the whole haystack. */
  lemma ContainsNeedsRoom(hay: string, needle: string)
    ensures |needle| > |hay| ==> !Contains(hay, needle)
    ensures |needle| == |hay| ==> (Contains(hay, needle) <==> hay == needle)
  {
    ContainsIffOccurs(hay, needle);
    if |needle| == |hay| && Contains(hay, needle) {
      var i :| OccursAt(hay, needle, i);
      assert i == 0;
    }
    if |needle| == |hay| && hay == needle {
      assert OccursAt(hay, needle, 0);
    }
  }

  function DigitChar(d: nat): (c: char)
    requires d < 10
    ensures '0' <= c <= '9'
  {
    "0123456789"[d]
  }

  function DigitValue(c: char): (d: nat)
    requires '0' <= c <= '9'
    ensures d < 10
  {
    (c - '0') as nat
  }

  predicate IsDigits(s: string) {
    |s| > 0 && forall i :: 0 <= i < |s| ==> '0' <= s[i] <= '9'
  }

  /** `str(n)` for n >= 0: decimal digits, most significant first, no leading zeros. */
  function NatToText(n: nat): (s: string)
    ensures IsDigits(s)
    ensures |s| > 1 ==> s[0] != '0'
  {
    if n < 10 then [DigitChar(n)] else NatToText(n / 10) + [DigitChar(n % 10)]
  }

  /** `str(n)` for any integer: a minus sign before the digits of |n|. */
  function IntToText(n: int): string {
    if n < 0 then "-" + NatToText(-n) else NatToText(n)
  }

  function DigitsValue(s: string): nat
    requires IsDigits(s)
  {
    if |s| == 1 then DigitValue(s[0])
    else DigitsValue(s[..|s| - 1]) * 10 + DigitValue(s[|s| - 1])
  }

  /** `int(s)` restricted to what `str` produces: an optional minus sign and digits. */
  function ParseInt(s: string): Option<int> {
    if |s| > 0 && s[0] == '-' then
      (if IsDigits(s[1..]) then Some(0 - DigitsValue(s[1..]) as int) else None)
    else if IsDigits(s) then Some(DigitsValue(s))
    else None
  }

  lemma {:induction false} NatToTextRoundTrip(n: nat)
    ensures DigitsValue(NatToText(n)) == n
  {
    if n >= 10 {
      NatToTextRoundTrip(n / 10);
      var s := NatToText(n);
      assert s[..|s| - 1] == NatToText(n / 10);
      assert DigitValue(DigitChar(n % 10)) == n % 10;
    } else {
      assert DigitValue(DigitChar(n)) == n;
    }
  }

  /** The text of an integer reads back as that integer. */
  lemma IntToTextRoundTrip(n: int)
    ensures ParseInt(IntToText(n)) == Some(n)
  {
    var s := IntToText(n);
    if n < 0 {
      var digits := NatToText(-n);
      NatToTextRoundTrip(-n);
      assert s[0] == '-' && s[1..] == digits;
    } else {
      NatToTextRoundTrip(n);
      assert '0' <= s[0] <= '9';
    }
  }

  /** `s.split(sep)` with a one-character separator: the pieces between
      separators, including empty ones, so there is always at least one. */
  function Split(s: string, sep: char): (parts: seq<string>)
    ensures |parts| >= 1
    decreases |s|
  {
    if |s| == 0 then [""]
    else if s[0] == sep then [""] + Split(s[1..], sep)
    else
      var rest := Split(s[1..], sep);
      [[s[0]] + rest[0]] + rest[1..]
  }

  /** `sep.join(parts)`. */
  function Join(parts: seq<string>, sep: char): string
    requires |parts| >= 1
  {
    if |parts| == 1 then parts[0] else parts[0] + [sep] + Join(parts[1..], sep)
  }

  /** Splitting gives one more piece than the text has separators. */
  lemma {:induction false} SplitPieceCount(s: string, sep: char)
    ensures |Split(s, sep)| == multiset(s)[sep] + 1
    decreases |s|
  {
    if |s| > 0 {
      assert s == [s[0]] + s[1..];
      SplitPieceCount(s[1..], sep);
    }
  }

  /** Joining the pieces back with the separator gives the original text. */
  lemma {:induction false} JoinSplit(s: string, sep: char)
    ensures Join(Split(s, sep), sep) == s
    decreases |s|
  {
    if |s| > 0 {
      JoinSplit(s[1..], sep);
      var rest := Split(s[1..], sep);
      if s[0] == sep {
        assert Split(s, sep)[1..] == rest;
      } else {
        var parts := Split(s, sep);
        if |rest| > 1 {
          assert parts[1..] == rest[1..];
        }
        assert s == [s[0]] + s[1..];
      }
    }
  }

  /** No piece contains the separator. */
  lemma {:induction false} SplitPiecesAreFree(s: string, sep: char)
    ensures forall i :: 0 <= i < |Split(s, sep)| ==> sep !in Split(s, sep)[i]
    decreases |s|
  {
    if |s| > 0 {
      SplitPiecesAreFree(s[1..], sep);
      var rest := Split(s[1..], sep);
      var parts := Split(s, sep);
      if s[0] != sep {
        forall i | 0 <= i < |parts|
          ensures sep !in parts[i]
        {
          if i == 0 {
            assert parts[0] == [s[0]] + rest[0];
          } else {
            assert parts[i] == rest[i];
          }
        }
      } else {
        forall i | 0 <= i < |parts|
          ensures sep !in parts[i]
        {
          if i > 0 {
            assert parts[i] == rest[i - 1];
          }
        }
      }
    }
  }

  /** Text up to the first separator is the first piece. */
  lemma {:induction false} SplitAtFirst(p: string, sep: char, q: string)
    requires sep !in p
    ensures Split(p + [sep] + q, sep) == [p] + Split(q, sep)
    decreases |p|
  {
    if |p| == 0 {
      assert p + [sep] + q == [sep] + q;
      assert ([sep] + q)[1..] == q;
    } else {
      SplitAtFirst(p[1..], sep, q);
      assert (p + [sep] + q)[1..] == p[1..] + [sep] + q;
      assert [p[0]] + p[1..] == p;
    }
  }

  /** Text without the separator splits into itself alone. */
  lemma {:induction false} SplitWithoutSeparator(s: string, sep: char)
    requires sep !in s
    ensures Split(s, sep) == [s]
    decreases |s|
  {
    if |s| > 0 {
      assert sep !in s[1..];
      SplitWithoutSeparator(s[1..], sep);
      assert [s[0]] + s[1..] == s;
    }
  }

  /** The first piece of a split is a prefix of the text, followed there by
      the separator or by the end of the text. */
  lemma {:induction false} SplitFirstPiece(s: string, sep: char)
    ensures var first := Split(s, sep)[0];
      IsPrefix(first, s) && (|first| == |s| || s[|first|] == sep)
    decreases |s|
  {
    if |s| > 0 && s[0] != sep {
      SplitFirstPiece(s[1..], sep);
      assert Split(s, sep)[0] == [s[0]] + Split(s[1..], sep)[0];
    }
  }
}

=== FILE: wrappers.dfy ===
/** The optional value the bot's Python code expresses with `None`. */
module Wrappers {

  datatype Option<+T> = None | Some(value: T) {

    /** The value, or `default` when absent (Python's `dict.get(key, default)`). */
    function GetOr(default: T): (r: T)
      ensures Some? ==> r == value
      ensures None? ==> r == default
    {
      match this
      case Some(v) => v
      case None => default
    }
  }
}
